=== FILE: README.md ===
# Channeling: task tracking from chat reactions, modelled in Dafny

Channeling is a chat bot that turns a reaction on a message into a tracked
task. A `ladybug` reaction stores a task for that message with the tag `bug`.
The bot keeps its tasks in a SQLite `task` table. A user's home tab lists
every task whose message and author lookups answer with a message and a
profile. If a lookup fails with an error, the whole refresh is lost; that
failure path is not modelled (see "Left out").

Two stages of the bot are modelled, each as its source files have it:

- The early stage (`db.ts`, `index.ts`, `util.ts`) only inserts tasks and has
  one "Complete" button.
- The later stage (`view.ts`) has a status catalogue. Each task offers a picker
  of the other statuses, and a modal lists the statuses with delete buttons.

Modules:

- `Text` (`text.dfy`): JavaScript's `join` and `split` with a one-character
  separator, with round-trip lemmas both ways. Also the decimal rendering of a
  natural number and its parser. Rendering then parsing always gives the
  number back. Parsing then rendering gives the string back only when it is
  canonical: the parser also accepts leading zeros (`"007"` reads as 7).
- `TaskStore` (`task_store.dfy`, `db.ts`): the table as a value `Table(rows, nextId)`
  with `Insert`, `Complete` and `Decode`, and the lemmas about them.
  The stateful side has two classes. `TaskDb` is the open database; its
  methods change the rows and the AUTOINCREMENT counter in place. `Store` is
  the module-level handle, opened lazily by `GetDB`. Each method's `ensures`
  ties the new table to the value-level function.
- `Routing` (`routing.dfy`, `index.ts`): the handlers' guards as one function
  from an event to at most one store call plus at most one home-view
  republish. `Apply` gives the call's effect on the table, and `Handle`
  performs the call on a `Store`.
- `Blocks` (`blocks.dfy`): a minimal block datatype, the tags markdown, the
  author context and `FlatMap` (`map` followed by `flat()`), shared by both
  views.
- `StatusView` (`status_view.dfy`, `view.ts`) and `HomePublisher`
  (`home_publisher.dfy`, `util.ts`): the view builders as pure functions. The
  statuses, the two built-in status ids, and the message/profile lookups are
  inputs.

Where the system's later design differs from these files, the model follows
the files:

- `storeTask` always appends. It does not merge tags by symmetric difference,
  and it does not keep one task per message.
- `getTasks` keeps empty tag tokens, so no tags read back as `[""]`.
- There is no status deletion and no seeding of built-in statuses.

## Model

| member | source | states |
|---|---|---|
| `Text.Join` | db.ts:51 | joining puts the first part at the front of the result and, when there are more parts, the separator right after it; no parts give `""` |
| `Text.Split` | db.ts:63 | `split` always yields at least one piece, and no piece contains the separator |
| `Text.SplitJoin` | db.ts:51 | a non-empty list of separator-free strings is recovered exactly by splitting its joined form |
| `Text.SplitJoinEmpty` | db.ts:51 | the empty list joins to `""`, which splits to `[""]`, not `[]` |
| `Text.JoinNotInjective` | db.ts:51 | `[]` and `[""]` join to the same string, so the empty list cannot round-trip |
| `Text.JoinSplit` | db.ts:62-65 | splitting and then re-joining gives back any tags column exactly |
| `Text.DecimalString` | view.ts:179 | an id's `toString()` is one or more digits without a leading zero |
| `Text.DecimalRoundTrip` | view.ts:202 | parsing an id's decimal string gives the id back |
| `Text.CanonicalRoundTrip` | view.ts:179 | a canonical digit string (no leading zero) is rendered back exactly from its parsed value |
| `Text.LeadingZerosParse` | view.ts:179 | the parser accepts `"007"` as 7, which renders as `"7"`, so non-canonical strings do not round-trip |
| `TaskStore.Insert` | db.ts:45-52 | the INSERT adds exactly one row and leaves the rows already there unchanged (rows are only appended), and it keeps the table invariant |
| `TaskStore.InsertAppendsOne` | db.ts:45-52 | `storeTask` appends exactly one row with the given channel, ts and comma-joined tags and status "New", and leaves earlier rows unchanged |
| `TaskStore.InsertFreshId` | db.ts:36 | a new id is greater than every id already issued, and the table invariant (positive ids, increasing in insertion order, below the counter) is kept |
| `TaskStore.IdsUnique` | db.ts:36 | in a well-formed table no two rows share an id |
| `TaskStore.InsertNeverMerges` | db.ts:45-52 | storing the same (channel, ts) twice gives two rows for that message, with different ids |
| `TaskStore.TagsRoundTrip` | db.ts:51-65 | a task stored with a non-empty, comma-free tag list is read back with exactly that list, its id and status "New", after the unchanged earlier tasks |
| `TaskStore.EmptyTagsReadBackAsEmptyString` | db.ts:51-63 | a task stored with no tags reads back with tags `[""]`, not `[]` |
| `TaskStore.CompleteRows` | db.ts:71-75 | the UPDATE sets status "Completed" on every row with that id and leaves every other row unchanged; the row count is unchanged |
| `TaskStore.Complete` | db.ts:68-76 | the UPDATE keeps the counter and the row count, changes no column but `status`, and afterwards a row is "Completed" exactly when it carries the id or already was |
| `TaskStore.CompleteOnlyTarget` | db.ts:68-76 | completing an existing id changes only that row's status; other rows, other fields and the counter are unchanged |
| `TaskStore.CompleteAbsentIsNoop` | db.ts:71-75 | completing an id no row carries leaves the table unchanged |
| `TaskStore.CompleteIdempotent` | db.ts:71-75 | completing the same id twice equals completing it once |
| `TaskStore.CompleteKeepsWellFormed` | db.ts:71-75 | completion keeps the id invariant of the table |
| `TaskStore.DecodeRow` | db.ts:62-65 | a decoded task keeps id, channel, ts and status; its tags are at least one comma-free piece, and they re-join to the stored column, which fixes them uniquely as the split of the column |
| `TaskStore.DecodeRows` | db.ts:57-65 | `getTasks` returns one task per row, in table (insertion) order, each the decoded row |
| `TaskStore.Decode` | db.ts:54-66 | `getTasks` returns one task per row, and re-joining each task's tags with `','` gives back exactly the stored row, so decoding loses nothing |
| `TaskStore.TaskDb.Open` | db.ts:31-43 | a freshly opened and initialised database has an empty `task` table, and the counter issues 1 next |
| `TaskStore.TaskDb.InsertRow` | db.ts:48-51 | the INSERT changes the table exactly as `Insert` does and keeps the invariant |
| `TaskStore.TaskDb.UpdateCompleted` | db.ts:71-75 | the UPDATE changes the table exactly as `Complete` does and keeps the invariant |
| `TaskStore.Store.constructor` | db.ts:7 | the handle starts unset, and an unset handle reads as an empty table |
| `TaskStore.Store.GetDB` | db.ts:18-29 | for calls made one at a time: the first call opens a fresh database, later calls return the same handle, and the table is unchanged |
| `TaskStore.Store.StoreTask` | db.ts:45-52 | the table afterwards is `Insert` of the old table with the tags joined by `','` |
| `TaskStore.Store.GetTasks` | db.ts:54-66 | returns the decoded rows and leaves the table unchanged |
| `TaskStore.Store.CompleteTask` | db.ts:68-76 | the table afterwards is `Complete` of the old table |
| `Routing.Route` | index.ts:18-52 | a store call is made exactly for a mapped reaction added on a message (store) or a `complete_task` button action (complete); the home view is republished exactly when a call is made or the `home` tab is opened, and always for the event's user; every other event (a removed reaction, another tab, another block action) does nothing |
| `Routing.Apply` | index.ts:27-49 | no call drops a row or rewrites an existing row's id or tags; only a store call adds a row, exactly one; with no call the table is unchanged |
| `Routing.OnlyLadybugIsMapped` | index.ts:6-8 | `ladybug` is the only mapped reaction, and it maps to `['bug']` |
| `Routing.IgnoredReactionsChangeNothing` | index.ts:19-25 | a reaction on a non-message item, or an unmapped reaction, has no effect and leaves the table unchanged |
| `Routing.RemovedReactionChangesNothing` | index.ts:18-34 | removing a reaction has no handler: no store call, no republish |
| `Routing.MappedReactionStoresOneTask` | index.ts:27-33 | a mapped reaction on a message adds exactly one task after the earlier ones, with the event's channel and ts, the mapped tags and status "New"; the reacting user's view is republished |
| `Routing.HomeOpenedOnlyRepublishes` | index.ts:36-42 | opening the app home never touches the table, and republishes exactly when the tab is `home` |
| `Routing.CompleteActionCompletes` | index.ts:44-51 | a non-button `complete_task` action does nothing; a button action completes the task whose id is the action's numeric value; a non-numeric value changes nothing |
| `Routing.RouteKeepsWellFormed` | index.ts:18-52 | no event breaks the table's id invariant |
| `Routing.Handle` | index.ts:18-52 | handling an event changes the live store exactly as the routed call says and returns the user to republish for |
| `Blocks.Backticked` | view.ts:110 | each tag is wrapped in backticks, one piece per tag, in order |
| `Blocks.TagsMarkdown` | view.ts:110 | the tags text is empty exactly when there are no tags (so an untagged list shows nothing), and otherwise starts with a backtick |
| `Blocks.TagsMarkdownPieces` | view.ts:110 | for space-free tags, the tags text splits at single spaces into exactly the backticked tags |
| `Blocks.AuthorElements` | view.ts:139-147 | the avatar falls back to `''` when the profile has none, the alt text is the display name, and the second element shows the display name in bold |
| `Blocks.FlatMapAppend` | view.ts:55 | `flat()` of the mapped blocks keeps their order: flattening distributes over concatenation of the list |
| `StatusView.StatusStyling` | view.ts:12-15 | styling is `_` for New, `~` for Completed and `''` for any other name |
| `StatusView.StatusMarkdown` | view.ts:111-150 | the status line is `*Status:* _New_` for New, `*Status:* ~Completed~` for Completed, and the bare name after `*Status:* ` for any other name |
| `StatusView.OptionValueRoundTrip` | view.ts:179 | the contract of `OptionValue`: splitting an option value `taskId:statusId` at `':'` recovers both ids |
| `StatusView.StatusOptionDecodes` | view.ts:172-180 | the contract of `StatusOption`: the option is labelled with the status name and its value decodes to the task's id and the status's id |
| `StatusView.StatusOptions` | view.ts:164-181 | there are never more options than statuses, and one per status exactly when no status has the current id |
| `StatusView.StatusOptionsMembers` | view.ts:168-180 | every status with another id than the current one is offered, and every option is such a status's option: labelled by its name, with value `task.id:status.id` |
| `StatusView.StatusOptionsAppend` | view.ts:168-172 | the options follow the order of the statuses |
| `StatusView.NeverOffersCurrentStatus` | view.ts:168-179 | every option decodes to this task's id and to a status id different from the current one |
| `StatusView.EntryBlocks` | view.ts:118-161 | an entry is a section with the message text and a status picker, a context whose first two elements are the author's, and a divider |
| `StatusView.TaskBlocks` | view.ts:104-162 | a task contributes no blocks exactly when its message or profile is missing, and otherwise a section, a context and a divider |
| `StatusView.EntryContents` | view.ts:118-161 | a shown entry holds the message text with the status picker, the author, the styled status and the tags text |
| `StatusView.RenderableTasks` | view.ts:114-116 | a task of the input is kept exactly when its message and profile were both found |
| `StatusView.EntriesCount` | view.ts:55 | `Entries` (`taskBlocks.flat()`) holds three blocks per shown task |
| `StatusView.EntriesAppend` | view.ts:18-20 | `Entries` of a concatenation is the concatenated entries, so task order is kept |
| `StatusView.EntriesOmitMissing` | view.ts:114-116 | tasks without message or profile leave no trace: the entries equal those of the shown tasks alone |
| `StatusView.EntriesAround` | view.ts:55 | a task's blocks sit between the entries of the tasks before it and after it |
| `StatusView.BuildHomeView` | view.ts:17-58 | the home view starts with its three fixed blocks (welcome section with the menu, header, divider); its length and entries are stated by `HomeViewLayout` and `HomeViewShowsEntry` |
| `StatusView.HomeViewLayout` | view.ts:17-58 | the home view is the three fixed blocks followed by three blocks per shown task |
| `StatusView.HomeViewShowsEntry` | view.ts:17-58 | every shown task's three blocks appear in the home view right after the fixed top and the earlier tasks' entries |
| `StatusView.StatusBlock` | view.ts:183-208 | a status block shows the bold name, and has a delete button exactly when the id is neither built-in id; the button's value is the canonical decimal string of the id (no leading zero) and parses back to the id, which together fix it as `status.id.toString()` |
| `StatusView.StatusBlocks` | view.ts:62-64 | one block per status, in order |
| `StatusView.BuildStatusManagementView` | view.ts:60-102 | the modal is header and divider, then for each status in order its own status block (bold name; a `DeleteStatus` button whose value is the id's decimal string exactly on the non-built-in ones), then divider and the add-status input |
| `StatusView.BuiltInStatusesHaveNoDeleteButton` | view.ts:192-205 | neither built-in status can be deleted from the modal |
| `HomePublisher.EntryBlocks` | util.ts:61-104 | an entry is a section with the message text and the constant Complete button, a context whose first two elements are the author's, and a divider |
| `HomePublisher.TaskBlocks` | util.ts:35-105 | a task contributes no blocks unless the history returned exactly one message and its author's profile was found; otherwise a section, a context and a divider |
| `HomePublisher.EntryContents` | util.ts:61-104 | a shown entry holds the message text with the constant Complete button, the author, the status as `_<status>_` whatever its name, and the tags text |
| `HomePublisher.RenderableCount` | util.ts:43-55 | at most every task is shown, and every task is shown exactly when each has one message and a profile |
| `HomePublisher.EntriesCount` | util.ts:7-22 | `Entries` (`taskBlocks.flat()`) holds three blocks per shown task |
| `HomePublisher.EntriesAppend` | util.ts:22 | `Entries` of a concatenation is the concatenated entries, so task order is kept |
| `HomePublisher.BuildHomeView` | util.ts:5-24 | the republished view starts with the header and the divider; its length is stated by `HomeViewLayout` and the effect of one more task by `HomeViewAfterNewTask` |
| `HomePublisher.HomeViewLayout` | util.ts:9-24 | the home view is a header and a divider, then three blocks per shown task |
| `HomePublisher.HomeViewAfterNewTask` | util.ts:5-24 | after one more task is stored, the republished view gains that task's blocks at the end |
| `HomePublisher.CompleteButtonIsInert` | util.ts:68-77 | the Complete button has no action id and the constant value `click_me_123`, which is not a number, so completing with it changes nothing |
| `HomePublisher.UntaggedTaskShowsEmptyCodeSpan` | util.ts:59 | a task stored without tags shows two backticks as its tags text |

## Left out

- The platform app: its construction, socket mode, `app.start`, `ack` and the
  start-up log (index.ts:10-16, index.ts:50, index.ts:54-58). They are transport
  and bootstrap.
- The platform client calls `views.publish`, `conversations.history` and
  `users.profile.get`. Their results are inputs, and publishing a view is
  represented by the user id `Route` returns.
- The history lookup asks for the latest message at or before the task's ts.
  The model takes its answer as given, so it does not capture that a deleted
  message can bring up the message before it.
- `fetchTaskData` and `getStatus` are not part of this model. Their results are
  inputs. So are the values of `DefaultStatus.New` and `DefaultStatus.Completed`,
  which are only known to be distinct, and `CustomAction`, whose values are opaque.
- The SQLite driver, the SQL text and `DATABASE_FILE`. Only the default
  in-memory database is modelled: the first use always sees an empty table.
  A database file that already holds rows is not modelled.
- The `tags` column default `""` (db.ts:40) is not modelled. `storeTask`
  always supplies the tags, so the default is never used.
- `Promise.all` and the order of the awaited lookups. Only the order of the
  results matters, and the model keeps it.
- `Routing.Route`: `Number(action.value)` is taken as already parsed: an
  integer, or `None` for NaN. Fractional values and `Number("")` being 0 are not
  modelled. `HomePublisher.CompleteButtonIsInert` uses the decimal parser as a
  stand-in for `Number` on `'click_me_123'`.
- Interpolating an undefined message text or display name (which prints
  `undefined`) is not modelled: these strings are always present.
- `StatusView.StatusStyling`: only the map's own keys are modelled. In
  JavaScript an inherited key such as `constructor` would yield a non-string.
- The full block schema is not modelled: text object types, `emoji` flags,
  `focus_on_load`, `dispatch_action` and the view/modal wrappers beyond their
  blocks and title are dropped.
- Ids are unbounded natural numbers and `DecimalString` is exact for all of
  them. In the source they are JavaScript numbers (db.ts:10). Above 2^53 they
  lose precision. From 1e21 on, `toString()` (view.ts:179, view.ts:202)
  switches to exponent form. Neither effect is modelled.
- `TaskStore.DecodeRows`: the order of `getTasks` is assumed to be insertion
  order. The `SELECT *` at db.ts:57-60 has no `ORDER BY`, and SQL does not
  promise any order; SQLite in practice returns such a scan in rowid order.
- `TaskStore.Store.GetDB`: calls run one at a time, and overlapping first
  calls are not modelled. In db.ts:19-26 the `!__db` test and the assignment
  `__db = await open(...)` are separated by an await, and the platform runs
  handlers concurrently. Two handlers whose first calls overlap both open a
  database, and the later assignment wins. With the default in-memory
  database, a row stored through the first handle is then never read again.
  The model's "later calls return the same handle" holds only for calls that
  start after the first one has finished.
- Failed lookups and failed store calls are not modelled. The `History` and
  `Profiles` inputs only express a lookup that answers, with or without
  messages or a profile. In util.ts:36-51 the two client calls are awaited
  without a catch. If one rejects (for instance `not_in_channel` after the bot
  left a channel that has a task), the `Promise.all` at util.ts:7 rejects and
  `republishHomeView` publishes nothing. So one unreachable task blanks the
  whole refresh; it does not just lose its own entry. Likewise, a rejected
  store call at index.ts:27 skips the republish at index.ts:33.
- Merging tags by symmetric difference, creating and deleting statuses, and
  seeding the built-in statuses do not occur in these files, so they are not
  modelled.

=== FILE: blocks.dfy ===
/**
 * A minimal stand-in for the platform's block layout: only the block kinds,
 * fields and accessories the two home-view builders produce.
 */
module Blocks {
  import opened Wrappers
  import opened Text

  /** The action ids of the later view (`CustomAction`); their string values are opaque here. */
  datatype CustomAction = MainOverflow | AddStatus | UpdateTaskStatus | DeleteStatus

  /** One choice of a select or overflow menu: its label and the value sent back when chosen. */
  datatype SelectOption = SelectOption(text: string, value: string)

  datatype Accessory =
    | Button(text: string, value: string, action: Option<CustomAction>, style: Option<string>)
    | StaticSelect(placeholder: string, actionId: CustomAction, options: seq<SelectOption>)
    | Overflow(actionId: CustomAction, options: seq<SelectOption>)

  /** The elements of a context block. */
  datatype Element = Image(url: string, altText: string) | Markdown(text: string)

  datatype Block =
    | Header(text: string)
    | Divider
    | Section(text: string, accessory: Option<Accessory>)
    | Context(elements: seq<Element>)
    | Input(actionId: CustomAction, labelText: string)

  datatype View = HomeView(blocks: seq<Block>) | ModalView(title: string, blocks: seq<Block>)

  /** A user profile as the profile lookup returns it; the avatar may be missing. */
  datatype Profile = Profile(displayName: string, image24: Option<string>)

  /** Each tag wrapped in backticks (markdown inline code). */
  function Backticked(tags: seq<string>): (r: seq<string>)
    ensures |r| == |tags|
    ensures forall i :: 0 <= i < |tags| ==> r[i] == "`" + tags[i] + "`"
  {
    if |tags| == 0 then [] else ["`" + tags[0] + "`"] + Backticked(tags[1..])
  }

  /** `tags.map(tag => `\`${tag}\``).join(' ')`. */
  function TagsMarkdown(tags: seq<string>): (r: string)
    ensures r == "" <==> |tags| == 0
    ensures |tags| >= 1 ==> r[0] == '`'
  {
    Join(Backticked(tags), ' ')
  }

  /**
   * The tags text is the backticked tags separated by single spaces: for tags
   * without spaces, splitting the text at spaces gives back exactly the
   * backticked tags, one per tag, in order.
   */
  lemma TagsMarkdownPieces(tags: seq<string>)
    requires |tags| >= 1
    requires forall tag :: tag in tags ==> ' ' !in tag
    ensures Split(TagsMarkdown(tags), ' ') == Backticked(tags)
  {
    BacktickedHasNoSpace(tags);
    SplitJoin(Backticked(tags), ' ');
  }

  /** Backticks add no space: space-free tags give space-free pieces. */
  lemma {:induction false} BacktickedHasNoSpace(tags: seq<string>)
    requires forall tag :: tag in tags ==> ' ' !in tag
    ensures forall p :: p in Backticked(tags) ==> ' ' !in p
  {
    if |tags| > 0 {
      var head := "`" + tags[0] + "`";
      assert tags[0] in tags;
      assert ' ' !in head;
      assert forall tag :: tag in tags[1..] ==> tag in tags;
      BacktickedHasNoSpace(tags[1..]);
      assert Backticked(tags) == [head] + Backticked(tags[1..]);
    }
  }

  /** The author part of an entry's context: avatar (`''` when missing) and display name. */
  function AuthorElements(profile: Profile): (r: seq<Element>)
    ensures |r| == 2
    ensures r[0].Image? && r[0].altText == profile.displayName
    ensures profile.image24.None? ==> r[0].url == ""
    ensures profile.image24.Some? ==> r[0].url == profile.image24.value
    ensures r[1] == Markdown(" *" + profile.displayName + "*")
  {
    [Image(profile.image24.GetOr(""), profile.displayName), Markdown(" *" + profile.displayName + "*")]
  }

  /** `xs.map(f).flat()`: the pieces `f` gives for each element, in order. */
  function FlatMap<T, U>(xs: seq<T>, f: T -> seq<U>): seq<U>
  {
    if |xs| == 0 then [] else f(xs[0]) + FlatMap(xs[1..], f)
  }

  /** Flattening distributes over concatenation. */
  lemma {:induction false} FlatMapAppend<T, U>(a: seq<T>, b: seq<T>, f: T -> seq<U>)
    ensures FlatMap(a + b, f) == FlatMap(a, f) + FlatMap(b, f)
  {
    if |a| > 0 {
      assert (a + b)[0] == a[0] && (a + b)[1..] == a[1..] + b;
      FlatMapAppend(a[1..], b, f);
      assert f(a[0]) + (FlatMap(a[1..], f) + FlatMap(b, f)) == (f(a[0]) + FlatMap(a[1..], f)) + FlatMap(b, f);
    } else {
      assert a + b == b;
    }
  }

  /** The middle part of a three-part concatenation is found where the first part ends. */
  lemma SliceAt<T>(whole: seq<T>, x: seq<T>, y: seq<T>, z: seq<T>)
    requires whole == x + (y + z)
    ensures |x| + |y| <= |whole| && whole[|x|..|x| + |y|] == y
  {
  }
}

=== FILE: home_publisher.dfy ===
/**
 * The home tab of the earlier version, rebuilt from every stored task each time
 * it is republished. For each task the message is looked up in the channel
 * history at the task's timestamp and its author's profile is looked up; both
 * lookups are inputs here.
 */
module HomePublisher {
  import opened Wrappers
  import opened Text
  import opened Blocks
  import TaskStore
  import Routing

  /** A message from the channel history: its author and its text. */
  datatype Message = Message(user: string, text: string)

  /**
   * The history lookup for (channel, ts): the `messages` field of the response,
   * absent when the response has none.
   */
  type History = (string, string) -> Option<seq<Message>>

  /** The profile lookup by user id; absent when the response has no profile. */
  type Profiles = string -> Option<Profile>

  /** The value every entry's button sends. */
  const COMPLETE_BUTTON_VALUE: string := "click_me_123"

  /** The button of every entry: the same for all tasks, without an action id. */
  const COMPLETE_BUTTON: Accessory := Button("Complete", COMPLETE_BUTTON_VALUE, None, Some("primary"))

  /** An entry is shown only when the history holds exactly one message and its author's profile is found. */
  predicate Renderable(task: TaskStore.Task, history: History, profiles: Profiles) {
    var found := history(task.channel, task.ts);
    found.Some? && |found.value| == 1 && profiles(found.value[0].user).Some?
  }

  /** The three blocks of a shown entry; the status is always in italics. */
  function EntryBlocks(task: TaskStore.Task, message: Message, profile: Profile): (r: seq<Block>)
    ensures |r| == 3 && r[0].Section? && r[0].text == message.text && r[1].Context? && r[2] == Divider
    ensures r[0].accessory == Some(COMPLETE_BUTTON)
    ensures |r[1].elements| == 4 && r[1].elements[..2] == AuthorElements(profile)
  {
    [ Section(message.text, Some(COMPLETE_BUTTON)),
      Context(AuthorElements(profile) + [Markdown("*Status:* _" + task.status + "_"), Markdown("*Tags:* " + TagsMarkdown(task.tags))]),
      Divider ]
  }

  /** `buildTaskBlocks`: the early returns for a missing message or profile, then the entry. */
  function TaskBlocks(task: TaskStore.Task, history: History, profiles: Profiles): (r: seq<Block>)
    ensures r == [] <==> !Renderable(task, history, profiles)
    ensures r != [] ==> |r| == 3 && r[0].Section? && r[1].Context? && r[2] == Divider
  {
    var found := history(task.channel, task.ts);
    if found.None? || |found.value| != 1 then []
    else
      var message := found.value[0];
      match profiles(message.user)
      case None => []
      case Some(profile) => EntryBlocks(task, message, profile)
  }

  /**
   * What a shown entry holds: the message text with the constant button, the
   * author, the status between underscores whatever its name, and the tags.
   */
  lemma EntryContents(task: TaskStore.Task, history: History, profiles: Profiles)
    requires Renderable(task, history, profiles)
    ensures var message := history(task.channel, task.ts).value[0];
      var r := TaskBlocks(task, history, profiles);
      && r[0] == Section(message.text, Some(COMPLETE_BUTTON))
      && r[1].elements[..2] == AuthorElements(profiles(message.user).value)
      && r[1].elements[2] == Markdown("*Status:* _" + task.status + "_")
      && r[1].elements[3] == Markdown("*Tags:* " + TagsMarkdown(task.tags))
  {
  }

  /** `taskBlocks.flat()`: every task's blocks, in task order. */
  function Entries(tasks: seq<TaskStore.Task>, history: History, profiles: Profiles): seq<Block>
  {
    FlatMap(tasks, BlocksOf(history, profiles))
  }

  /** `buildTaskBlocks` with both lookups fixed. */
  function BlocksOf(history: History, profiles: Profiles): TaskStore.Task -> seq<Block>
  {
    t => TaskBlocks(t, history, profiles)
  }

  /** The number of tasks that are shown. */
  function RenderableCount(tasks: seq<TaskStore.Task>, history: History, profiles: Profiles): (n: nat)
    ensures n <= |tasks|
    ensures n == |tasks| <==> forall i :: 0 <= i < |tasks| ==> Renderable(tasks[i], history, profiles)
  {
    if |tasks| == 0 then 0
    else (if Renderable(tasks[0], history, profiles) then 1 else 0) + RenderableCount(tasks[1..], history, profiles)
  }

  /** Three blocks per shown task, none for the others. */
  lemma {:induction false} EntriesCount(tasks: seq<TaskStore.Task>, history: History, profiles: Profiles)
    ensures |Entries(tasks, history, profiles)| == 3 * RenderableCount(tasks, history, profiles)
  {
    if |tasks| > 0 {
      EntriesCount(tasks[1..], history, profiles);
    }
  }

  /** The entries of a concatenation are the concatenated entries. */
  lemma {:induction false} EntriesAppend(a: seq<TaskStore.Task>, b: seq<TaskStore.Task>, history: History, profiles: Profiles)
    ensures Entries(a + b, history, profiles) == Entries(a, history, profiles) + Entries(b, history, profiles)
  {
    FlatMapAppend(a, b, BlocksOf(history, profiles));
  }

  const HOME_HEADER: seq<Block> := [Header("Tasks"), Divider]

  /** `republishHomeView`, without the publishing call: the view built from the tasks `getTasks` returned. */
  function BuildHomeView(tasks: seq<TaskStore.Task>, history: History, profiles: Profiles): (v: View)
    ensures v.HomeView? && HOME_HEADER <= v.blocks
  {
    HomeView(HOME_HEADER + Entries(tasks, history, profiles))
  }

  /** The home tab is a header and a divider, then three blocks per shown task. */
  lemma HomeViewLayout(tasks: seq<TaskStore.Task>, history: History, profiles: Profiles)
    ensures var v := BuildHomeView(tasks, history, profiles);
      && v.HomeView?
      && |v.blocks| == 2 + 3 * RenderableCount(tasks, history, profiles)
      && v.blocks[0] == Header("Tasks") && v.blocks[1] == Divider
  {
    EntriesCount(tasks, history, profiles);
  }

  /** Republishing after one more task was stored appends that task's blocks (if any) at the end. */
  lemma HomeViewAfterNewTask(tasks: seq<TaskStore.Task>, task: TaskStore.Task, history: History, profiles: Profiles)
    ensures BuildHomeView(tasks + [task], history, profiles).blocks
      == BuildHomeView(tasks, history, profiles).blocks + TaskBlocks(task, history, profiles)
  {
    var before, mid := Entries(tasks, history, profiles), TaskBlocks(task, history, profiles);
    EntriesAppend(tasks, [task], history, profiles);
    assert Entries([task], history, profiles) == mid by {
      var f := BlocksOf(history, profiles);
      assert [task][0] == task && [task][1..] == [];
      assert FlatMap([task], f) == f(task) + FlatMap([], f);
      assert f(task) == mid;
    }
    assert HOME_HEADER + (before + mid) == (HOME_HEADER + before) + mid;
  }

  /**
   * The button cannot complete anything: it has no action id, so the
   * `complete_task` handler never receives it, and even if it did, its value
   * is not a number, so the completion would match no row.
   */
  lemma CompleteButtonIsInert(t: TaskStore.Table)
    ensures COMPLETE_BUTTON.action == None
    ensures ParseDecimal(COMPLETE_BUTTON_VALUE) == None
    ensures Routing.Apply(t, Some(Routing.CompleteTaskCall(ParseDecimal(COMPLETE_BUTTON_VALUE)))) == t
  {
    assert !IsDigit(COMPLETE_BUTTON_VALUE[0]);
  }

  /**
   * A task stored with no tags shows an empty code span as its tags: its tag
   * list reads back as `[""]`, which renders as two backticks.
   */
  lemma UntaggedTaskShowsEmptyCodeSpan(t: TaskStore.Table, channel: string, ts: string)
    ensures var task := TaskStore.Decode(TaskStore.Insert(t, channel, ts, Join([], TaskStore.TAG_SEPARATOR)))[|t.rows|];
      TagsMarkdown(task.tags) == "``"
  {
    TaskStore.EmptyTagsReadBackAsEmptyString(t, channel, ts);
  }
}

=== FILE: routing.dfy ===
/**
 * The bot's event handlers: `reaction_added` turns a mapped reaction on a message
 * into a stored task, `app_home_opened` republishes the home tab, and the
 * `complete_task` button action completes a task. Each handler makes at most one
 * store call and then asks for the home view of one user to be republished.
 */
module Routing {
  import opened Wrappers
  import opened Text
  import opened TaskStore

  /** Which reactions create a task, and with which tags. */
  const REACTIONS_MAP: map<string, seq<string>> := map["ladybug" := ["bug"]]

  /** The action id the completion handler is registered for. */
  const COMPLETE_TASK_ACTION: string := "complete_task"

  /** The item a reaction was placed on. */
  datatype Item = Item(itemType: string, channel: string, ts: string)

  /**
   * The platform events that reach the bot. `value` of a block action is the
   * result of `Number(action.value)`: `None` stands for a value that is not a
   * number (NaN).
   */
  datatype Event =
    | ReactionAdded(item: Item, reaction: string, user: string)
    | ReactionRemoved(item: Item, reaction: string, user: string)
    | AppHomeOpened(tab: string, user: string)
    | BlockAction(actionId: string, actionType: string, value: Option<int>, user: string)

  /** A call into the task table. */
  datatype StoreCall =
    | StoreTaskCall(channel: string, ts: string, tags: seq<string>)
    | CompleteTaskCall(id: Option<int>)

  /** What handling one event does: at most one store call, then at most one home-view republish. */
  datatype Effect = Effect(call: Option<StoreCall>, republishFor: Option<string>)

  const NO_EFFECT: Effect := Effect(None, None)

  /** The handlers' guard clauses. */
  function Route(e: Event): (r: Effect)
    ensures (r.call.Some? && r.call.value.StoreTaskCall?) <==>
      (e.ReactionAdded? && e.item.itemType == "message" && e.reaction in REACTIONS_MAP)
    ensures (r.call.Some? && r.call.value.CompleteTaskCall?) <==>
      (e.BlockAction? && e.actionId == COMPLETE_TASK_ACTION && e.actionType == "button")
    ensures r.call.Some? ==> r.republishFor == Some(e.user)
    ensures r.republishFor.Some? ==> r.republishFor.value == e.user
    ensures r.republishFor.Some? <==> r.call.Some? || (e.AppHomeOpened? && e.tab == "home")
  {
    match e
    case ReactionAdded(item, reaction, user) =>
      if item.itemType != "message" then NO_EFFECT
      else if reaction !in REACTIONS_MAP then NO_EFFECT
      else Effect(Some(StoreTaskCall(item.channel, item.ts, REACTIONS_MAP[reaction])), Some(user))
    case ReactionRemoved(_, _, _) => NO_EFFECT
    case AppHomeOpened(tab, user) =>
      if tab != "home" then NO_EFFECT else Effect(None, Some(user))
    case BlockAction(actionId, actionType, value, user) =>
      if actionId != COMPLETE_TASK_ACTION then NO_EFFECT
      else if actionType != "button" then NO_EFFECT
      else Effect(Some(CompleteTaskCall(value)), Some(user))
  }

  /** What a store call does to the table; NaN matches no row, so it changes nothing. */
  function Apply(t: Table, call: Option<StoreCall>): (r: Table)
    ensures call.None? ==> r == t
    ensures |r.rows| == |t.rows| + (if call.Some? && call.value.StoreTaskCall? then 1 else 0)
    ensures forall i :: 0 <= i < |t.rows| ==> r.rows[i].id == t.rows[i].id && r.rows[i].tags == t.rows[i].tags
  {
    match call
    case None => t
    case Some(StoreTaskCall(channel, ts, tags)) => Insert(t, channel, ts, Join(tags, TAG_SEPARATOR))
    case Some(CompleteTaskCall(Some(id))) => Complete(t, id)
    case Some(CompleteTaskCall(None)) => t
  }

  /** `ladybug` is the only mapped reaction, and it maps to the single tag `bug`. */
  lemma OnlyLadybugIsMapped()
    ensures REACTIONS_MAP.Keys == {"ladybug"}
    ensures REACTIONS_MAP["ladybug"] == ["bug"]
  {
  }

  /** A reaction on anything but a message, or an unmapped reaction, leaves the table as it is. */
  lemma IgnoredReactionsChangeNothing(t: Table, e: Event)
    requires e.ReactionAdded?
    requires e.item.itemType != "message" || e.reaction !in REACTIONS_MAP
    ensures Route(e) == NO_EFFECT
    ensures Apply(t, Route(e).call) == t
  {
  }

  /** Removing a reaction is not handled at all: nothing is stored and nothing is republished. */
  lemma RemovedReactionChangesNothing(t: Table, e: Event)
    requires e.ReactionRemoved?
    ensures Route(e) == NO_EFFECT && Apply(t, Route(e).call) == t
  {
  }

  /**
   * A mapped reaction on a message stores exactly one task: `getTasks` then returns
   * the old tasks followed by a task for the reacted-to message, carrying the
   * mapped tags and the default status; the reacting user's home view is republished.
   */
  lemma MappedReactionStoresOneTask(t: Table, e: Event)
    requires e.ReactionAdded? && e.item.itemType == "message" && e.reaction in REACTIONS_MAP
    ensures Route(e).republishFor == Some(e.user)
    ensures var tasks := Decode(Apply(t, Route(e).call));
      && |tasks| == |t.rows| + 1
      && tasks[..|t.rows|] == Decode(t)
      && tasks[|t.rows|] == Task(t.nextId, e.item.channel, e.item.ts, DEFAULT_STATUS, REACTIONS_MAP[e.reaction])
  {
    var tags := REACTIONS_MAP[e.reaction];
    assert tags == ["bug"];
    assert forall tag :: tag in tags ==> TAG_SEPARATOR !in tag;
    TagsRoundTrip(t, e.item.channel, e.item.ts, tags);
  }

  /** Opening the home tab republishes the user's view only when the tab is `home`; it never touches the table. */
  lemma HomeOpenedOnlyRepublishes(t: Table, e: Event)
    requires e.AppHomeOpened?
    ensures Route(e).call == None && Apply(t, Route(e).call) == t
    ensures Route(e).republishFor.Some? <==> e.tab == "home"
  {
  }

  /**
   * The `complete_task` action completes a task only when it comes from a button;
   * the task completed is the one whose id is the numeric value of the action.
   */
  lemma CompleteActionCompletes(t: Table, e: Event)
    requires e.BlockAction? && e.actionId == COMPLETE_TASK_ACTION
    ensures e.actionType != "button" ==> Route(e) == NO_EFFECT
    ensures e.actionType == "button" && e.value.Some? ==> Apply(t, Route(e).call) == Complete(t, e.value.value)
    ensures e.actionType == "button" && e.value.None? ==> Apply(t, Route(e).call) == t
  {
  }

  /** Whatever the event, the table invariant is kept. */
  lemma RouteKeepsWellFormed(t: Table, e: Event)
    requires WellFormed(t)
    ensures WellFormed(Apply(t, Route(e).call))
  {
    var call := Route(e).call;
    if call.Some? && call.value.StoreTaskCall? {
      InsertFreshId(t, call.value.channel, call.value.ts, Join(call.value.tags, TAG_SEPARATOR));
    } else if call.Some? && call.value.id.Some? {
      CompleteKeepsWellFormed(t, call.value.id.value);
    }
  }

  /**
   * Handling one event against the live store: the awaited store call, if the
   * guards let one through, changes the table exactly as `Apply` says. The
   * republish step reads the store and is modelled by the view modules.
   */
  method Handle(store: Store, e: Event) returns (republishFor: Option<string>)
    requires store.Valid()
    modifies store, store.db
    ensures store.Valid()
    ensures store.State() == Apply(old(store.State()), Route(e).call)
    ensures republishFor == Route(e).republishFor
  {
    var effect := Route(e);
    match effect.call {
      case None =>
      case Some(StoreTaskCall(channel, ts, tags)) =>
        store.StoreTask(channel, ts, tags);
      case Some(CompleteTaskCall(Some(id))) =>
        store.CompleteTask(id);
      case Some(CompleteTaskCall(None)) =>
    }
    republishFor := effect.republishFor;
  }
}

=== FILE: status_view.dfy ===
/**
 * The home tab and the status-management modal of the later version, which
 * has a status catalogue: each task entry offers a picker of the other
 * statuses, and the modal lists the statuses with a delete button on every
 * status except the two built-in ones. The statuses, the built-in ids and the
 * message and profile fetched for each task are inputs.
 */
module StatusView {
  import opened Wrappers
  import opened Text
  import opened Blocks

  /** A status of the catalogue. */
  datatype Status = Status(id: nat, name: string)

  /** The ids of the two built-in statuses (`DefaultStatus.New`, `DefaultStatus.Completed`). */
  datatype ReservedIds = ReservedIds(newId: nat, completedId: nat)

  /** The two built-in ids are distinct; their values are not fixed here. */
  type DefaultStatus = d: ReservedIds | d.newId != d.completedId witness ReservedIds(0, 1)

  /** The fields of a task this view reads. */
  datatype Task = Task(id: nat, status: string, statusId: nat, tags: seq<string>)

  datatype Message = Message(text: string)

  /** What `fetchTaskData` returned for a task: either part may be missing. */
  datatype TaskData = TaskData(message: Option<Message>, profile: Option<Profile>)

  /** Markdown emphasis per status name. */
  const STATUS_STYLING_MAP: map<string, string> := map["New" := "_", "Completed" := "~"]

  /** `STATUS_STYLING_MAP[name] ?? ''`. */
  function StatusStyling(name: string): (r: string)
    ensures name == "New" ==> r == "_"
    ensures name == "Completed" ==> r == "~"
    ensures name != "New" && name != "Completed" ==> r == ""
  {
    if name in STATUS_STYLING_MAP then STATUS_STYLING_MAP[name] else ""
  }

  /** The status line of an entry: the name with its styling on both sides. */
  function StatusMarkdown(name: string): (r: string)
    ensures name == "New" ==> r == "*Status:* _New_"
    ensures name == "Completed" ==> r == "*Status:* ~Completed~"
    ensures name != "New" && name != "Completed" ==> r == "*Status:* " + name
  {
    var styling := StatusStyling(name);
    "*Status:* " + styling + name + styling
  }

  /** The value of a picker option: `${task.id}:${status.id}`. */
  function OptionValue(taskId: nat, statusId: nat): string
  {
    DecimalString(taskId) + ":" + DecimalString(statusId)
  }

  /** Reading an option value back: split at ':' into exactly two decimal numbers. */
  function ParseOptionValue(value: string): Option<(nat, nat)>
  {
    var parts := Split(value, ':');
    if |parts| != 2 then None
    else
      match (ParseDecimal(parts[0]), ParseDecimal(parts[1]))
      case (Some(taskId), Some(statusId)) => Some((taskId, statusId))
      case _ => None
  }

  /** Both ids are recovered from an option value. */
  lemma OptionValueRoundTrip(taskId: nat, statusId: nat)
    ensures ParseOptionValue(OptionValue(taskId, statusId)) == Some((taskId, statusId))
  {
    var a, b := DecimalString(taskId), DecimalString(statusId);
    assert ':' !in a && ':' !in b;
    SplitAtSeparator(a, b, ':');
    SplitNoSeparator(b, ':');
    assert a + ":" + b == a + [':'] + b;
    DecimalRoundTrip(taskId);
    DecimalRoundTrip(statusId);
  }

  /** The picker option that moves `task` to `status`. */
  function StatusOption(task: Task, status: Status): SelectOption
  {
    SelectOption(status.name, OptionValue(task.id, status.id))
  }

  /** The option for `status` is labelled by its name and decodes to this task and that status. */
  lemma StatusOptionDecodes(task: Task, status: Status)
    ensures StatusOption(task, status).text == status.name
    ensures ParseOptionValue(StatusOption(task, status).value) == Some((task.id, status.id))
  {
    OptionValueRoundTrip(task.id, status.id);
  }

  /** `buildStatusOptions`: the statuses whose id is not the task's current status id, as options. */
  function StatusOptions(task: Task, statuses: seq<Status>): (r: seq<SelectOption>)
    ensures |r| <= |statuses|
    ensures |r| == |statuses| <==> forall i :: 0 <= i < |statuses| ==> statuses[i].id != task.statusId
  {
    if |statuses| == 0 then []
    else
      var rest := StatusOptions(task, statuses[1..]);
      if statuses[0].id != task.statusId then [StatusOption(task, statuses[0])] + rest else rest
  }

  /**
   * Exactly the other statuses are offered: every status with another id has
   * its option, and every option is that of a status with another id.
   */
  lemma {:induction false} StatusOptionsMembers(task: Task, statuses: seq<Status>)
    ensures var r := StatusOptions(task, statuses);
      && (forall s :: s in statuses && s.id != task.statusId ==> StatusOption(task, s) in r)
      && (forall o :: o in r ==> exists s :: s in statuses && s.id != task.statusId && o == StatusOption(task, s))
  {
    if |statuses| > 0 {
      StatusOptionsMembers(task, statuses[1..]);
      assert statuses == [statuses[0]] + statuses[1..];
    }
  }

  /** Options keep the order of the statuses: the options of a concatenation are the concatenated options. */
  lemma {:induction false} StatusOptionsAppend(task: Task, a: seq<Status>, b: seq<Status>)
    ensures StatusOptions(task, a + b) == StatusOptions(task, a) + StatusOptions(task, b)
  {
    if |a| > 0 {
      var ab := a + b;
      assert ab[0] == a[0] && ab[1..] == a[1..] + b;
      StatusOptionsAppend(task, a[1..], b);
      var head := if a[0].id != task.statusId then [StatusOption(task, a[0])] else [];
      assert StatusOptions(task, ab) == head + StatusOptions(task, ab[1..]);
      assert StatusOptions(task, a) == head + StatusOptions(task, a[1..]);
    } else {
      assert a + b == b;
    }
  }

  /** The current status is never offered: every option decodes to this task and to another status id. */
  lemma NeverOffersCurrentStatus(task: Task, statuses: seq<Status>, k: int)
    requires 0 <= k < |StatusOptions(task, statuses)|
    ensures var decoded := ParseOptionValue(StatusOptions(task, statuses)[k].value);
      decoded.Some? && decoded.value.0 == task.id && decoded.value.1 != task.statusId
  {
    var o := StatusOptions(task, statuses)[k];
    assert o in StatusOptions(task, statuses);
    StatusOptionsMembers(task, statuses);
    var s :| s in statuses && s.id != task.statusId && o == StatusOption(task, s);
    StatusOptionDecodes(task, s);
  }

  /** The three blocks of a rendered entry. */
  function EntryBlocks(task: Task, message: Message, profile: Profile, statuses: seq<Status>): (r: seq<Block>)
    ensures |r| == 3 && r[0].Section? && r[0].text == message.text && r[1].Context? && r[2] == Divider
    ensures r[0].accessory.Some? && r[0].accessory.value.StaticSelect?
    ensures |r[1].elements| == 4 && r[1].elements[..2] == AuthorElements(profile)
  {
    [ Section(message.text, Some(StaticSelect("Choose new status...", UpdateTaskStatus, StatusOptions(task, statuses)))),
      Context(AuthorElements(profile) + [Markdown(StatusMarkdown(task.status)), Markdown("*Tags:* " + TagsMarkdown(task.tags))]),
      Divider ]
  }

  predicate Renderable(data: TaskData) {
    data.message.Some? && data.profile.Some?
  }

  /** `buildTaskBlocks`: no blocks when the message or the profile is missing, else a section, a context and a divider. */
  function TaskBlocks(task: Task, data: TaskData, statuses: seq<Status>): (r: seq<Block>)
    ensures r == [] <==> !Renderable(data)
    ensures r != [] ==> |r| == 3 && r[0].Section? && r[1].Context? && r[2] == Divider
  {
    if data.message.None? || data.profile.None? then []
    else EntryBlocks(task, data.message.value, data.profile.value, statuses)
  }

  /**
   * What a rendered entry shows: the message text with the status picker, the
   * author, the styled status and the backticked tags.
   */
  lemma EntryContents(task: Task, data: TaskData, statuses: seq<Status>)
    requires Renderable(data)
    ensures var r := TaskBlocks(task, data, statuses);
      && r[0] == Section(data.message.value.text,
                         Some(StaticSelect("Choose new status...", UpdateTaskStatus, StatusOptions(task, statuses))))
      && r[1].elements[..2] == AuthorElements(data.profile.value)
      && r[1].elements[2] == Markdown("*Status:* " + StatusStyling(task.status) + task.status + StatusStyling(task.status))
      && r[1].elements[3] == Markdown("*Tags:* " + TagsMarkdown(task.tags))
  {
  }

  /** The tasks whose message and profile were both found, in order. */
  function RenderableTasks(tasks: seq<Task>, fetch: Task -> TaskData): (r: seq<Task>)
    ensures |r| <= |tasks|
    ensures forall t :: t in r ==> t in tasks && Renderable(fetch(t))
    ensures forall t :: t in tasks && Renderable(fetch(t)) ==> t in r
  {
    if |tasks| == 0 then []
    else
      var rest := RenderableTasks(tasks[1..], fetch);
      if Renderable(fetch(tasks[0])) then [tasks[0]] + rest else rest
  }

  /** `taskBlocks.flat()`: every task's blocks, in task order. */
  function Entries(tasks: seq<Task>, fetch: Task -> TaskData, statuses: seq<Status>): seq<Block>
  {
    FlatMap(tasks, BlocksOf(fetch, statuses))
  }

  /** `buildTaskBlocks` with the fetched data and the statuses fixed. */
  function BlocksOf(fetch: Task -> TaskData, statuses: seq<Status>): Task -> seq<Block>
  {
    t => TaskBlocks(t, fetch(t), statuses)
  }

  /** Three blocks per renderable task, none for the others. */
  lemma {:induction false} EntriesCount(tasks: seq<Task>, fetch: Task -> TaskData, statuses: seq<Status>)
    ensures |Entries(tasks, fetch, statuses)| == 3 * |RenderableTasks(tasks, fetch)|
  {
    if |tasks| > 0 {
      EntriesCount(tasks[1..], fetch, statuses);
    }
  }

  /** The entries of a concatenation are the concatenated entries. */
  lemma {:induction false} EntriesAppend(a: seq<Task>, b: seq<Task>, fetch: Task -> TaskData, statuses: seq<Status>)
    ensures Entries(a + b, fetch, statuses) == Entries(a, fetch, statuses) + Entries(b, fetch, statuses)
  {
    FlatMapAppend(a, b, BlocksOf(fetch, statuses));
  }

  /** Tasks without a message or profile are simply left out: the entries are those of the renderable tasks. */
  lemma {:induction false} EntriesOmitMissing(tasks: seq<Task>, fetch: Task -> TaskData, statuses: seq<Status>)
    ensures Entries(tasks, fetch, statuses) == Entries(RenderableTasks(tasks, fetch), fetch, statuses)
  {
    if |tasks| > 0 {
      EntriesOmitMissing(tasks[1..], fetch, statuses);
      var rest := RenderableTasks(tasks[1..], fetch);
      if Renderable(fetch(tasks[0])) {
        assert ([tasks[0]] + rest)[1..] == rest;
      }
    }
  }

  /** The fixed top of the home tab: the welcome section with its overflow menu, the header, a divider. */
  const HOME_HEADER: seq<Block> := [
    Section("Welcome to Channeling!", Some(Overflow(MainOverflow, [SelectOption("Manage Status", "manage-status")]))),
    Header("Tasks"),
    Divider
  ]

  /** `buildHomeView`: the fixed top followed by every task's blocks. */
  function BuildHomeView(tasks: seq<Task>, fetch: Task -> TaskData, statuses: seq<Status>): (v: View)
    ensures v.HomeView? && HOME_HEADER <= v.blocks
  {
    HomeView(HOME_HEADER + Entries(tasks, fetch, statuses))
  }

  /**
   * The home tab starts with its three fixed blocks and then holds three blocks
   * for each task whose message and profile were found, and none for the others.
   */
  lemma HomeViewLayout(tasks: seq<Task>, fetch: Task -> TaskData, statuses: seq<Status>)
    ensures var v := BuildHomeView(tasks, fetch, statuses);
      && v.HomeView?
      && |v.blocks| == |HOME_HEADER| + 3 * |RenderableTasks(tasks, fetch)|
      && v.blocks[..|HOME_HEADER|] == HOME_HEADER
  {
    EntriesCount(tasks, fetch, statuses);
  }

  /** The entries split around task `i`: those before it, its own blocks, those after it. */
  lemma EntriesAround(tasks: seq<Task>, fetch: Task -> TaskData, statuses: seq<Status>, i: int)
    requires 0 <= i < |tasks|
    ensures Entries(tasks, fetch, statuses) ==
      Entries(tasks[..i], fetch, statuses)
      + (TaskBlocks(tasks[i], fetch(tasks[i]), statuses) + Entries(tasks[i + 1..], fetch, statuses))
  {
    var pre, post := tasks[..i], tasks[i + 1..];
    assert tasks == pre + ([tasks[i]] + post);
    EntriesAppend(pre, [tasks[i]] + post, fetch, statuses);
    EntriesAppend([tasks[i]], post, fetch, statuses);
    assert [tasks[i]][1..] == [];
  }

  /**
   * Every task whose message and profile were found appears in the home tab as
   * its three blocks, after the fixed top and after the entries of the tasks
   * before it.
   */
  lemma HomeViewShowsEntry(tasks: seq<Task>, fetch: Task -> TaskData, statuses: seq<Status>, i: int)
    requires 0 <= i < |tasks| && Renderable(fetch(tasks[i]))
    ensures var blocks := BuildHomeView(tasks, fetch, statuses).blocks;
      var k := |HOME_HEADER| + |Entries(tasks[..i], fetch, statuses)|;
      k + 3 <= |blocks| && blocks[k..k + 3] == TaskBlocks(tasks[i], fetch(tasks[i]), statuses)
  {
    var mid := TaskBlocks(tasks[i], fetch(tasks[i]), statuses);
    var before, after := Entries(tasks[..i], fetch, statuses), Entries(tasks[i + 1..], fetch, statuses);
    var all := Entries(tasks, fetch, statuses);
    EntriesAround(tasks, fetch, statuses, i);
    assert all == before + (mid + after);
    var top := HOME_HEADER + before;
    var blocks := BuildHomeView(tasks, fetch, statuses).blocks;
    assert blocks == HOME_HEADER + all;
    assert blocks == top + (mid + after) by {
      assert HOME_HEADER + (before + (mid + after)) == top + (mid + after);
    }
    SliceAt(blocks, top, mid, after);
  }

  /** Whether `id` is one of the two built-in statuses. */
  predicate IsReserved(id: nat, reserved: DefaultStatus) {
    id == reserved.newId || id == reserved.completedId
  }

  /** `buildStatusBlocks`: the bold name, with a delete button carrying the id unless the status is built in. */
  function StatusBlock(status: Status, reserved: DefaultStatus): (b: Block)
    ensures b.Section? && b.text == "*" + status.name + "*"
    ensures b.accessory.Some? <==> !IsReserved(status.id, reserved)
    ensures b.accessory.Some? ==> && b.accessory.value.Button?
                                  && b.accessory.value.action == Some(DeleteStatus)
                                  && ParseDecimal(b.accessory.value.value) == Some(status.id)
                                  && Canonical(b.accessory.value.value)
  {
    DecimalRoundTrip(status.id);
    var accessory :=
      if !IsReserved(status.id, reserved)
      then Some(Button(":x:", DecimalString(status.id), Some(DeleteStatus), None))
      else None;
    Section("*" + status.name + "*", accessory)
  }

  /** One block per status, in order. */
  function StatusBlocks(statuses: seq<Status>, reserved: DefaultStatus): (r: seq<Block>)
    ensures |r| == |statuses|
    ensures forall i :: 0 <= i < |statuses| ==> r[i] == StatusBlock(statuses[i], reserved)
  {
    if |statuses| == 0 then [] else [StatusBlock(statuses[0], reserved)] + StatusBlocks(statuses[1..], reserved)
  }

  /**
   * `buildStatusManagementView`: a header and a divider, each status's own block
   * in order (a delete button carrying its id exactly on the statuses that are
   * not built in), then a divider and the input for a new status.
   */
  function BuildStatusManagementView(statuses: seq<Status>, reserved: DefaultStatus): (v: View)
    ensures var n := |statuses|;
      && v.ModalView? && |v.blocks| == n + 4
      && v.blocks[0] == Header("Status List") && v.blocks[1] == Divider
      && (forall i :: 0 <= i < n ==>
            && v.blocks[2 + i] == StatusBlock(statuses[i], reserved)
            && v.blocks[2 + i].text == "*" + statuses[i].name + "*"
            && (v.blocks[2 + i].accessory.Some? <==> !IsReserved(statuses[i].id, reserved)))
      && v.blocks[n + 2] == Divider && v.blocks[n + 3] == Input(AddStatus, "Add Status")
  {
    ModalView("Manage Status",
      [Header("Status List"), Divider] + StatusBlocks(statuses, reserved) + [Divider, Input(AddStatus, "Add Status")])
  }

  /** Neither built-in status can be deleted from the modal, whatever else the catalogue holds. */
  lemma BuiltInStatusesHaveNoDeleteButton(statuses: seq<Status>, reserved: DefaultStatus, i: int)
    requires 0 <= i < |statuses|
    requires statuses[i].id == reserved.newId || statuses[i].id == reserved.completedId
    ensures BuildStatusManagementView(statuses, reserved).blocks[2 + i].accessory == None
  {
  }
}

=== FILE: task_store.dfy ===
/**
 * The `task` table of the bot's SQLite database and the three operations on it:
 * `storeTask` (INSERT), `getTasks` (SELECT, decoding the tags) and
 * `completeTask` (UPDATE by id). The table is a sequence of rows plus the
 * AUTOINCREMENT counter; the database handle is opened lazily on first use.
 */
module TaskStore {
  import opened Text

  /** Column defaults of the schema created by `initDB`. */
  const DEFAULT_STATUS: string := "New"
  /** The status `completeTask` writes. */
  const COMPLETED_STATUS: string := "Completed"
  /** The separator of the tags column. */
  const TAG_SEPARATOR: char := ','
  /** SQLite's AUTOINCREMENT issues 1 as the first id of an empty table. */
  const FIRST_ID: nat := 1

  /** A row as stored: the tags column holds the comma-joined tag list. */
  datatype Row = Row(id: nat, channel: string, ts: string, status: string, tags: string)

  /** A task as `getTasks` returns it (the `Task` record): the tags split back into a list. */
  datatype Task = Task(id: nat, channel: string, ts: string, status: string, tags: seq<string>)

  /** The table contents and the next id AUTOINCREMENT will issue. */
  datatype Table = Table(rows: seq<Row>, nextId: nat)

  const EMPTY_TABLE: Table := Table([], FIRST_ID)

  /**
   * The table invariant: every issued id is positive and below the counter, and
   * ids increase with insertion order (rows are only ever appended).
   */
  predicate WellFormed(t: Table) {
    && t.nextId >= FIRST_ID
    && (forall i :: 0 <= i < |t.rows| ==> FIRST_ID <= t.rows[i].id < t.nextId)
    && (forall i, j :: 0 <= i < j < |t.rows| ==> t.rows[i].id < t.rows[j].id)
  }

  /** Whether some row carries `id`. */
  predicate HasId(rows: seq<Row>, id: int) {
    exists i :: 0 <= i < |rows| && rows[i].id == id
  }

  /** `INSERT INTO task (channel, ts, tags)`: status takes its default, id the next counter value. */
  function Insert(t: Table, channel: string, ts: string, tags: string): (r: Table)
    ensures |r.rows| == |t.rows| + 1 && r.rows[..|t.rows|] == t.rows
    ensures WellFormed(t) ==> WellFormed(r)
  {
    Table(t.rows + [Row(t.nextId, channel, ts, DEFAULT_STATUS, tags)], t.nextId + 1)
  }

  /** `UPDATE task SET status = "Completed" WHERE id = ?` over a list of rows. */
  function CompleteRows(rows: seq<Row>, id: int): (r: seq<Row>)
    ensures |r| == |rows|
    ensures forall i :: 0 <= i < |rows| && rows[i].id == id ==> r[i] == rows[i].(status := COMPLETED_STATUS)
    ensures forall i :: 0 <= i < |rows| && rows[i].id != id ==> r[i] == rows[i]
  {
    if |rows| == 0 then []
    else
      var head := if rows[0].id == id then rows[0].(status := COMPLETED_STATUS) else rows[0];
      [head] + CompleteRows(rows[1..], id)
  }

  /** The table after `completeTask(id)`; the counter is not touched. */
  function Complete(t: Table, id: int): (r: Table)
    ensures r.nextId == t.nextId && |r.rows| == |t.rows|
    ensures forall i :: 0 <= i < |t.rows| ==> r.rows[i] == t.rows[i].(status := r.rows[i].status)
    ensures forall i :: 0 <= i < |t.rows| ==>
      (r.rows[i].status == COMPLETED_STATUS <==> t.rows[i].id == id || t.rows[i].status == COMPLETED_STATUS)
  {
    Table(CompleteRows(t.rows, id), t.nextId)
  }

  /** The mapping `getTasks` applies to each row: `tags.split(',')`, every other column as is. */
  function DecodeRow(row: Row): (task: Task)
    ensures task.id == row.id && task.channel == row.channel && task.ts == row.ts
    ensures task.status == row.status
    ensures |task.tags| >= 1 && forall tag :: tag in task.tags ==> TAG_SEPARATOR !in tag
    ensures Join(task.tags, TAG_SEPARATOR) == row.tags
  {
    JoinSplit(row.tags, TAG_SEPARATOR);
    Task(row.id, row.channel, row.ts, row.status, Split(row.tags, TAG_SEPARATOR))
  }

  /** `getTasks`: every row, in table order, decoded. */
  function DecodeRows(rows: seq<Row>): (tasks: seq<Task>)
    ensures |tasks| == |rows|
    ensures forall i :: 0 <= i < |rows| ==> tasks[i] == DecodeRow(rows[i])
  {
    if |rows| == 0 then [] else [DecodeRow(rows[0])] + DecodeRows(rows[1..])
  }

  /** `getTasks` over the whole table; re-encoding the decoded tasks gives every row back. */
  function Decode(t: Table): (tasks: seq<Task>)
    ensures |tasks| == |t.rows|
    ensures forall i :: 0 <= i < |t.rows| ==>
      Row(tasks[i].id, tasks[i].channel, tasks[i].ts, tasks[i].status, Join(tasks[i].tags, TAG_SEPARATOR)) == t.rows[i]
  {
    DecodeRows(t.rows)
  }

  /**
   * `storeTask` appends exactly one row carrying the given channel, ts and joined
   * tags with the default status; the rows already there are unchanged.
   */
  lemma InsertAppendsOne(t: Table, channel: string, ts: string, tags: seq<string>)
    ensures var t' := Insert(t, channel, ts, Join(tags, TAG_SEPARATOR));
      && |t'.rows| == |t.rows| + 1
      && t'.rows[..|t.rows|] == t.rows
      && t'.rows[|t.rows|].channel == channel
      && t'.rows[|t.rows|].ts == ts
      && t'.rows[|t.rows|].status == DEFAULT_STATUS
      && t'.rows[|t.rows|].tags == Join(tags, TAG_SEPARATOR)
  {
  }

  /** The id a new row gets is greater than every id already issued, so ids never repeat. */
  lemma InsertFreshId(t: Table, channel: string, ts: string, tags: string)
    requires WellFormed(t)
    ensures var t' := Insert(t, channel, ts, tags);
      && WellFormed(t')
      && (forall i :: 0 <= i < |t.rows| ==> t.rows[i].id < t'.rows[|t.rows|].id)
      && !HasId(t.rows, t'.rows[|t.rows|].id)
  {
  }

  /** Ids are unique in a well-formed table. */
  lemma {:induction false} IdsUnique(t: Table, i: int, j: int)
    requires WellFormed(t)
    requires 0 <= i < |t.rows| && 0 <= j < |t.rows| && i != j
    ensures t.rows[i].id != t.rows[j].id
  {
    if i < j {
      assert t.rows[i].id < t.rows[j].id;
    } else {
      assert t.rows[j].id < t.rows[i].id;
    }
  }

  /**
   * `storeTask` never merges: storing the same (channel, ts) twice leaves two rows
   * for that message, with different ids.
   */
  lemma InsertNeverMerges(t: Table, channel: string, ts: string, tags1: string, tags2: string)
    ensures var t2 := Insert(Insert(t, channel, ts, tags1), channel, ts, tags2);
      var n := |t.rows|;
      && |t2.rows| == n + 2
      && t2.rows[n].channel == channel && t2.rows[n].ts == ts
      && t2.rows[n + 1].channel == channel && t2.rows[n + 1].ts == ts
      && t2.rows[n].id != t2.rows[n + 1].id
  {
    var t2 := Insert(Insert(t, channel, ts, tags1), channel, ts, tags2);
    assert t2.rows[|t.rows|].id == t.nextId && t2.rows[|t.rows| + 1].id == t.nextId + 1;
  }

  /**
   * Tags round-trip: a task stored with a non-empty, comma-free tag list is read
   * back by `getTasks` with exactly that list and the default status.
   */
  lemma TagsRoundTrip(t: Table, channel: string, ts: string, tags: seq<string>)
    requires |tags| >= 1
    requires forall tag :: tag in tags ==> TAG_SEPARATOR !in tag
    ensures var tasks := Decode(Insert(t, channel, ts, Join(tags, TAG_SEPARATOR)));
      && |tasks| == |t.rows| + 1
      && tasks[..|t.rows|] == Decode(t)
      && tasks[|t.rows|] == Task(t.nextId, channel, ts, DEFAULT_STATUS, tags)
  {
    SplitJoin(tags, TAG_SEPARATOR);
    var t' := Insert(t, channel, ts, Join(tags, TAG_SEPARATOR));
    assert forall i :: 0 <= i < |t.rows| ==> t'.rows[i] == t.rows[i];
  }

  /** The quirk: a task stored with no tags reads back with the one tag `""`, not with none. */
  lemma EmptyTagsReadBackAsEmptyString(t: Table, channel: string, ts: string)
    ensures var tasks := Decode(Insert(t, channel, ts, Join([], TAG_SEPARATOR)));
      tasks[|t.rows|].tags == [""] && tasks[|t.rows|].tags != []
  {
    var t' := Insert(t, channel, ts, Join([], TAG_SEPARATOR));
    assert t'.rows[|t.rows|].tags == "";
  }

  /**
   * `completeTask(id)` on a row that exists: that row's status becomes
   * "Completed", its other columns, every other row and the counter are unchanged.
   */
  lemma CompleteOnlyTarget(t: Table, id: int, k: int)
    requires WellFormed(t)
    requires 0 <= k < |t.rows| && t.rows[k].id == id
    ensures var t' := Complete(t, id);
      && |t'.rows| == |t.rows| && t'.nextId == t.nextId
      && t'.rows[k] == t.rows[k].(status := COMPLETED_STATUS)
      && (forall i :: 0 <= i < |t.rows| && i != k ==> t'.rows[i] == t.rows[i])
  {
    forall i | 0 <= i < |t.rows| && i != k
      ensures Complete(t, id).rows[i] == t.rows[i]
    {
      IdsUnique(t, i, k);
    }
  }

  /** `completeTask` on an id that no row carries changes nothing. */
  lemma CompleteAbsentIsNoop(t: Table, id: int)
    requires !HasId(t.rows, id)
    ensures Complete(t, id) == t
  {
    assert Complete(t, id).rows == t.rows;
  }

  /** `completeTask` is idempotent. */
  lemma CompleteIdempotent(t: Table, id: int)
    ensures Complete(Complete(t, id), id) == Complete(t, id)
  {
    assert Complete(Complete(t, id), id).rows == Complete(t, id).rows;
  }

  /** `completeTask` keeps the table invariant (ids are never rewritten). */
  lemma CompleteKeepsWellFormed(t: Table, id: int)
    requires WellFormed(t)
    ensures WellFormed(Complete(t, id))
  {
  }

  /**
   * The open SQLite database, reduced to its `task` table: the rows and the
   * AUTOINCREMENT counter that the INSERT and UPDATE statements change in place.
   */
  class TaskDb {
    var rows: seq<Row>
    var nextId: nat

    function State(): Table
      reads this
    {
      Table(rows, nextId)
    }

    ghost predicate Valid()
      reads this
    {
      WellFormed(State())
    }

    /** `open` on a fresh in-memory database followed by `initDB`: the `task` table exists and is empty. */
    constructor Open()
      ensures Valid() && State() == EMPTY_TABLE
    {
      rows := [];
      nextId := FIRST_ID;
    }

    /** `INSERT INTO task (channel, ts, tags) VALUES (?, ?, ?)`. */
    method InsertRow(channel: string, ts: string, tags: string)
      requires Valid()
      modifies this
      ensures Valid()
      ensures State() == Insert(old(State()), channel, ts, tags)
    {
      InsertFreshId(State(), channel, ts, tags);
      rows := rows + [Row(nextId, channel, ts, DEFAULT_STATUS, tags)];
      nextId := nextId + 1;
    }

    /** `UPDATE task SET status = "Completed" WHERE id = ?`. */
    method UpdateCompleted(id: int)
      requires Valid()
      modifies this
      ensures Valid()
      ensures State() == Complete(old(State()), id)
    {
      CompleteKeepsWellFormed(State(), id);
      rows := CompleteRows(rows, id);
    }
  }

  /**
   * The module-level state of the database module: the handle `__db`, unset
   * until the first operation opens and initialises the database.
   */
  class Store {
    var db: TaskDb?

    ghost predicate Valid()
      reads this, db
    {
      db != null ==> db.Valid()
    }

    /** The table as the next operation will see it: an unopened database reads as an empty table. */
    function State(): Table
      reads this, db
    {
      if db == null then EMPTY_TABLE else db.State()
    }

    constructor ()
      ensures Valid() && db == null && State() == EMPTY_TABLE
    {
      db := null;
    }

    /** `getDB`: opens and initialises the database once, then always returns the same handle. */
    method GetDB() returns (d: TaskDb)
      requires Valid()
      modifies this
      ensures Valid() && db == d
      ensures old(db) != null ==> d == old(db)
      ensures old(db) == null ==> fresh(d)
      ensures State() == old(State())
    {
      if db == null {
        db := new TaskDb.Open();
      }
      d := db;
    }

    /** `storeTask`: inserts one row with the tags joined by ','. */
    method StoreTask(channel: string, ts: string, tags: seq<string>)
      requires Valid()
      modifies this, db
      ensures Valid() && db != null
      ensures State() == Insert(old(State()), channel, ts, Join(tags, TAG_SEPARATOR))
    {
      var d := GetDB();
      d.InsertRow(channel, ts, Join(tags, TAG_SEPARATOR));
    }

    /** `getTasks`: every row, decoded; the table is not changed. */
    method GetTasks() returns (tasks: seq<Task>)
      requires Valid()
      modifies this
      ensures Valid() && db != null
      ensures State() == old(State())
      ensures tasks == Decode(old(State()))
    {
      var d := GetDB();
      tasks := DecodeRows(d.rows);
    }

    /** `completeTask`: marks the row with this id as completed. */
    method CompleteTask(id: int)
      requires Valid()
      modifies this, db
      ensures Valid() && db != null
      ensures State() == Complete(old(State()), id)
    {
      var d := GetDB();
      d.UpdateCompleted(id);
    }
  }
}

=== FILE: text.dfy ===
/**
 * String encodings the system relies on: JavaScript's `Array.prototype.join`
 * and `String.prototype.split` with a one-character separator, and the decimal
 * rendering of a non-negative integer (`Number.prototype.toString`) with the
 * parser that inverts it.
 */
module Text {
  import opened Wrappers

  /** `parts.join(sep)`: the parts with one separator between neighbours; `[]` gives `""`. */
  function Join(parts: seq<string>, sep: char): (r: string)
    ensures |parts| == 0 ==> r == ""
    ensures |parts| >= 1 ==> parts[0] <= r
    ensures |parts| >= 2 ==> |parts[0]| < |r| && r[|parts[0]|] == sep
  {
    if |parts| == 0 then ""
    else if |parts| == 1 then parts[0]
    else parts[0] + [sep] + Join(parts[1..], sep)
  }

  /**
   * `s.split(sep)`: the maximal separator-free pieces between separators. There is
   * always at least one piece, and an empty string splits into one empty piece.
   */
  function Split(s: string, sep: char): (r: seq<string>)
    ensures |r| >= 1
    ensures forall piece :: piece in r ==> sep !in piece
    decreases |s|
  {
    if |s| == 0 then [""]
    else
      var rest := Split(s[1..], sep);
      if s[0] == sep then [""] + rest
      else [[s[0]] + rest[0]] + rest[1..]
  }

  /** Splitting after a separator-free prefix glues that prefix onto the first piece. */
  lemma {:induction false} SplitPrefix(x: string, t: string, sep: char)
    requires sep !in x
    ensures Split(x + t, sep) == [x + Split(t, sep)[0]] + Split(t, sep)[1..]
    decreases |x|
  {
    if |x| > 0 {
      assert (x + t)[1..] == x[1..] + t;
      SplitPrefix(x[1..], t, sep);
      assert [x[0]] + (x[1..] + Split(t, sep)[0]) == x + Split(t, sep)[0];
    } else {
      var r := Split(t, sep);
      assert x + t == t && x + r[0] == r[0];
      assert r == [r[0]] + r[1..];
    }
  }

  /** A separator-free string is a single piece. */
  lemma SplitNoSeparator(x: string, sep: char)
    requires sep !in x
    ensures Split(x, sep) == [x]
  {
    SplitPrefix(x, "", sep);
    assert x + "" == x;
  }

  /** Splitting `x + sep + t` for a separator-free `x` yields `x` followed by the pieces of `t`. */
  lemma SplitAtSeparator(x: string, t: string, sep: char)
    requires sep !in x
    ensures Split(x + [sep] + t, sep) == [x] + Split(t, sep)
  {
    assert x + [sep] + t == x + ([sep] + t);
    SplitPrefix(x, [sep] + t, sep);
    assert ([sep] + t)[1..] == t;
    assert x + "" == x;
  }

  /**
   * Decoding after encoding: a non-empty list whose elements contain no separator
   * is recovered exactly from its joined form.
   */
  lemma {:induction false} SplitJoin(parts: seq<string>, sep: char)
    requires |parts| >= 1
    requires forall p :: p in parts ==> sep !in p
    ensures Split(Join(parts, sep), sep) == parts
  {
    if |parts| == 1 {
      SplitNoSeparator(parts[0], sep);
    } else {
      assert parts[0] in parts;
      forall p | p in parts[1..] ensures sep !in p {
        assert p in parts;
      }
      SplitJoin(parts[1..], sep);
      SplitAtSeparator(parts[0], Join(parts[1..], sep), sep);
      assert [parts[0]] + parts[1..] == parts;
    }
  }

  /** The empty list is the exception: it joins to `""`, which splits to `[""]`. */
  lemma SplitJoinEmpty(sep: char)
    ensures Join([], sep) == ""
    ensures Split(Join([], sep), sep) == [""]
  {
  }

  /** Why the empty list cannot round-trip: `[]` and `[""]` have the same joined form. */
  lemma JoinNotInjective(sep: char)
    ensures Join([], sep) == Join([""], sep)
  {
  }

  /** Encoding after decoding: every string is rebuilt exactly from its pieces. */
  lemma {:induction false} JoinSplit(s: string, sep: char)
    ensures Join(Split(s, sep), sep) == s
    decreases |s|
  {
    if |s| > 0 {
      var rest := Split(s[1..], sep);
      JoinSplit(s[1..], sep);
      if s[0] == sep {
        assert Split(s, sep) == [""] + rest;
        assert ([""] + rest)[1..] == rest;
        assert s == [sep] + s[1..];
      } else {
        var r := Split(s, sep);
        assert r == [[s[0]] + rest[0]] + rest[1..];
        if |rest| == 1 {
          assert s[1..] == rest[0];
        } else {
          assert r[1..] == rest[1..];
          assert Join(rest, sep) == rest[0] + [sep] + Join(rest[1..], sep);
        }
        assert s == [s[0]] + s[1..];
      }
    }
  }

  predicate IsDigit(c: char) { '0' as int <= c as int <= '9' as int }

  /** The digit character for `d`. */
  function DigitChar(d: nat): (c: char)
    requires d < 10
    ensures IsDigit(c) && (c as int) - ('0' as int) == d
  {
    ('0' as int + d) as char
  }

  /** `n.toString()` for a non-negative integer: decimal digits, no sign, no leading zero. */
  function DecimalString(n: nat): (r: string)
    ensures |r| >= 1
    ensures forall c :: c in r ==> IsDigit(c)
    ensures |r| > 1 ==> r[0] != '0'
  {
    if n < 10 then [DigitChar(n)]
    else DecimalString(n / 10) + [DigitChar(n % 10)]
  }

  /** The value of a string of digits, most significant first. */
  function DigitsValue(s: string): nat
    requires forall c :: c in s ==> IsDigit(c)
  {
    if |s| == 0 then 0
    else
      assert forall c :: c in s[..|s| - 1] ==> c in s;
      assert s[|s| - 1] in s && IsDigit(s[|s| - 1]);
      DigitsValue(s[..|s| - 1]) * 10 + ((s[|s| - 1] as int) - ('0' as int))
  }

  /** Reads a decimal natural number; anything that is not one or more digits has no value. */
  function ParseDecimal(s: string): Option<nat>
  {
    if |s| > 0 && forall c :: c in s ==> IsDigit(c) then Some(DigitsValue(s)) else None
  }

  /** Decimal rendering round-trips through the parser. */
  lemma {:induction false} DecimalRoundTrip(n: nat)
    ensures ParseDecimal(DecimalString(n)) == Some(n)
    decreases n
  {
    var s := DecimalString(n);
    if n >= 10 {
      var init := DecimalString(n / 10);
      DecimalRoundTrip(n / 10);
      assert DigitsValue(init) == n / 10;
      assert s[..|s| - 1] == init;
      assert s[|s| - 1] == DigitChar(n % 10);
      assert DigitsValue(s) == (n / 10) * 10 + n % 10;
    } else {
      assert s[..|s| - 1] == [];
    }
  }

  /** A canonical decimal string: one or more digits, with no leading zero unless it is just "0". */
  predicate Canonical(s: string) {
    |s| >= 1 && (forall c :: c in s ==> IsDigit(c)) && (|s| == 1 || s[0] != '0')
  }

  /** Digits with a non-zero leading digit have a positive value. */
  lemma {:induction false} LeadingDigitPositive(s: string)
    requires |s| >= 1 && (forall c :: c in s ==> IsDigit(c)) && s[0] != '0'
    ensures DigitsValue(s) >= 1
    decreases |s|
  {
    var init := s[..|s| - 1];
    assert forall c :: c in init ==> c in s;
    assert s[|s| - 1] in s && IsDigit(s[|s| - 1]);
    if |s| == 1 {
      assert init == [];
      assert s[0] == s[|s| - 1];
    } else {
      assert init[0] == s[0];
      LeadingDigitPositive(init);
    }
  }

  /**
   * The other direction of the codec holds only for canonical strings: parsing
   * then rendering gives back exactly a canonical string.
   */
  lemma {:induction false} CanonicalRoundTrip(s: string)
    requires Canonical(s)
    ensures ParseDecimal(s).Some? && DecimalString(ParseDecimal(s).value) == s
    decreases |s|
  {
    var init := s[..|s| - 1];
    var last := s[|s| - 1];
    assert forall c :: c in init ==> c in s;
    assert last in s && IsDigit(last);
    var d := (last as int) - ('0' as int);
    if |s| == 1 {
      assert init == [];
      assert DigitsValue(s) == d;
      assert DigitChar(d) == last;
      assert s == [last];
    } else {
      assert init[0] == s[0];
      LeadingDigitPositive(init);
      CanonicalRoundTrip(init);
      var v := DigitsValue(s);
      assert v == DigitsValue(init) * 10 + d;
      assert v >= 10 && v / 10 == DigitsValue(init) && v % 10 == d;
      assert DigitChar(d) == last;
      assert s == init + [last];
    }
  }

  /** The parser also accepts leading zeros, so a non-canonical string does not round-trip. */
  lemma LeadingZerosParse()
    ensures ParseDecimal("007") == Some(7)
    ensures DecimalString(7) == "7"
  {
    assert DigitsValue("007"[..2]) == 0 by {
      assert "007"[..2] == "00";
      assert "00"[..1] == "0";
    }
  }
}

=== FILE: wrappers.dfy ===
/** Optional values: a lookup that may find nothing, a field that may be undefined. */
module Wrappers {
  datatype Option<+T> = None | Some(value: T) {
    /** The value, or `default` when there is none (JavaScript's `x ?? default`). */
    function GetOr(default: T): T {
      match this
      case Some(v) => v
      case None => default
    }
  }
}
